=== FILE: README.md ===
# Scroll-driven landing page: a Dafny model of its sequential logic

The Tedera landing page plays an image sequence on a canvas as the visitor
scrolls through a pinned hero section. It fades the navigation bar and the
header out and flies a hero image in. It also has a wallet-connect modal and
a dismissible floating notification. All of this lives in `script.js`. This
project models the sequential part of that script. Arithmetic is over exact
reals and unbounded integers. The model has seven modules:

- `ScrollProgress`: the `onUpdate` callback. One progress value in [0, 1]
  drives four piecewise-linear curves: the frame index, the nav opacity, the
  header depth and opacity, and the hero-image depth and opacity. `Math.round`
  is `Floor(x + 0.5)`.
- `FrameNames`: `currentFrame`, the 1-indexed, zero-padded URL of each frame,
  plus a parser that accepts exactly those URLs and recovers the index.
- `Preload`: the `imagesToLoad` countdown latch. A load and an error both
  count as a settlement.
- `Canvas`: the cover-fit rectangle computed by `render`, and the guard that
  decides whether anything is drawn.
- `Overlays`: the wallet modal and `FloatingNotification` as one immutable
  record `{modalVisible, notifVisible, dismissed, scrollLocked}` with pure
  transition functions.
- `Page`: the whole page as a state machine over browser events (image
  settlements, scroll ticks, resizes, overlay events). It ties the pieces
  together.
- `Wrappers`: the `Option` type.

Two behaviours of the code worth noting:

- A latch created with zero frames never fires. With no frames the loading
  loop creates no image, so no settlement ever arrives and `imagesToLoad`
  stays at 0 without the start action running. The latch model accepts any
  settlement sequence, and there too a counter started at 0 never fires: the
  counter only goes below zero. `Preload.StartsOnceAtLastSettlement` states
  this. The page itself always uses 207 frames.
- Rounding is `Math.round`, which rounds halves upward. It is not "half away
  from zero". The two agree on the non-negative values the frame mapping
  produces.

## Model

| member | source | states |
|---|---|---|
| ScrollProgress.Round | script.js:99 | `Math.round` yields the integer within half a unit of its argument, with halves going up |
| ScrollProgress.FrameIndex | script.js:98-99 | the frame index is 0 at progress 0, lies in [0, frameCount-1], is frameCount-1 for every progress from 0.9 on, and up to 0.9 is progress/0.9*(frameCount-1) rounded to the nearest integer with halves going up |
| ScrollProgress.FrameIndexMonotone | script.js:98-99 | scrolling forward never selects an earlier frame |
| ScrollProgress.FrameIndexReachesEveryFrame | script.js:98-99 | every frame k is selected exactly at progress 0.9*k/(frameCount-1), so no frame is skipped by the mapping |
| ScrollProgress.NavOpacity | script.js:103-109 | the nav opacity stays in [0,1], is 1 at the top of the section and 0 from 0.1 on |
| ScrollProgress.NavOpacityNonIncreasing | script.js:103-109 | the nav only ever fades out as progress grows |
| ScrollProgress.NavOpacityLipschitz | script.js:103-109 | the nav opacity changes by at most 10 times the progress change, so it is continuous, also at 0.1 |
| ScrollProgress.HeaderOpacity | script.js:111-127 | the header opacity stays in [0,1], is 1 before 0.2 and 0 from 0.25 on |
| ScrollProgress.HeaderDepth | script.js:112-113 | while animated, the header depth lies in [-500,0], from 0 at the top to -500 at 0.25 |
| ScrollProgress.HeaderStyle | script.js:111-127 | up to 0.25 the header depth is set to the linear depth of `HeaderDepth`, within [-500,0]; beyond 0.25 only the opacity is written and the depth keeps its previous value |
| ScrollProgress.HeaderOpacityNonIncreasing | script.js:115-119 | the header only ever fades out as progress grows |
| ScrollProgress.HeaderOpacityLipschitz | script.js:111-127 | the header opacity changes by at most 20 times the progress change, so it is continuous at 0.2 and 0.25 |
| ScrollProgress.HeaderDepthLinear | script.js:112-113 | the header recedes by exactly 2000 px per unit of progress |
| ScrollProgress.HeroStyle | script.js:129-155 | the hero depth stays in [0,1000] and opacity in [0,1]; before 0.6 it is (1000, 0), from 0.8 the opacity is 1, from 0.9 it is (0, 1) |
| ScrollProgress.HeroStyleMonotone | script.js:129-155 | the hero image only ever approaches and only ever fades in as progress grows |
| ScrollProgress.HeroStyleLipschitz | script.js:129-155 | hero depth moves at most 1000/0.3 and opacity at most 1/0.2 per unit of progress, so both are continuous at 0.6, 0.8 and 0.9 |
| ScrollProgress.CurveSamples | script.js:111-155 | header opacity is 0.6 at 0.22 and 0 at 0.3; hero opacity is 0.5 at 0.7, 1 at 0.85 and 0 at 0.5 |
| ScrollProgress.Tick | script.js:95-155 | one `onUpdate` tick writes the frame index, the nav opacity, the header style and the hero style of the progress value, the header depth carried over beyond 0.25; every written value is in range given a header depth already in range or a progress up to 0.25 |
| ScrollProgress.TickForgetsPrevious | script.js:95-155 | a tick is recomputed from progress alone; the only trace of the previous state is the header depth beyond 0.25 |
| ScrollProgress.TickIdempotent | script.js:95-155 | delivering the same progress twice has the effect of delivering it once |
| FrameNames.Decimal | script.js:33 | `toString` of a non-negative integer (below 10^21) is a non-empty digit string with a leading '0' only for zero |
| FrameNames.PadStart | script.js:33 | `padStart` keeps the numeral as a suffix, fills the rest with '0', and has length max(length, width) |
| FrameNames.ParseDecimal_Decimal | script.js:33 | reading the decimal numeral of n gives back n |
| FrameNames.Decimal_ParseDecimal | script.js:33 | a numeral with no leading zero is the numeral of its own value |
| FrameNames.DecimalLength | script.js:33 | a numeral has at most k digits exactly when the number is below 10^k |
| FrameNames.ParseDecimal_Zeros | script.js:33 | zero padding does not change the value of a numeral |
| FrameNames.FieldIsCanonical | script.js:32-33 | the padded field of frame i is a well-formed field denoting i+1 |
| FrameNames.FieldWidth | script.js:32-33 | the numeric field is exactly four digits precisely for indices below 9999 |
| FrameNames.FrameName | script.js:32-33 | `currentFrame(i)` is a URL that the frame-name parser reads back as i |
| FrameNames.Field_CanonicalField | script.js:32-33 | every well-formed field is the padded field of the frame it denotes |
| FrameNames.FrameName_ParseFrameName | script.js:32-33 | every URL the parser accepts is exactly the URL of the frame it reports |
| FrameNames.FrameNameInjective | script.js:32-33 | distinct frame indices are requested under distinct URLs |
| Preload.Start | script.js:37 | the counter starts at the frame count with nothing started |
| Preload.Settle | script.js:39-53 | a settlement, load or error, decrements the counter and fires the start action exactly when one image was outstanding |
| Preload.RunCounts | script.js:37-56 | after any settlements the counter has dropped by their number and the start action has run once if the counter reached zero on the way, else not at all, whatever the outcomes |
| Preload.StartsOnceAtLastSettlement | script.js:37-56 | from a fresh latch the start action has run exactly once after frameCount settlements or more, never before, and never when frameCount is 0 |
| Preload.FiresAtSettlement | script.js:39-46 | the settlement that fires the start action is precisely the frameCount-th |
| Canvas.CoverFit | script.js:66-81 | the draw rectangle keeps the image aspect, covers the canvas in both directions, matches it in at least one, and is centred on it |
| Canvas.WiderImageFit | script.js:71-75 | an image wider than the canvas, scaled to canvas height, keeps its aspect and exceeds the canvas width |
| Canvas.NarrowerImageFit | script.js:76-81 | any other image, scaled to canvas width, keeps its aspect and reaches the canvas height |
| Canvas.CoverFitIsUniformScale | script.js:66-81 | the cover fit is the image scaled by max(canvasWidth/imageWidth, canvasHeight/imageHeight) |
| Canvas.CoverFitIsSmallest | script.js:66-81 | no smaller rectangle of the image's aspect covers the canvas |
| Canvas.Render | script.js:58-85 | something is drawn exactly when the current frame exists, is complete and has positive natural width, and then it covers the canvas, matches it in at least one dimension, keeps the aspect and is centred |
| Overlays.Initial | script.js:206-215 | at load neither overlay is active, nothing is dismissed (`isDismissed = false`) and scrolling is free, so the lock invariant holds |
| Overlays.ShowModal | script.js:171-175 | opening the modal makes it visible and locks scrolling, leaving the notification alone |
| Overlays.HideModal | script.js:178-181 | closing the modal hides it and unlocks scrolling even when the notification is open |
| Overlays.ShowNotif | script.js:238-242 | `show()` after a dismissal changes nothing; otherwise it shows the notification and locks scrolling |
| Overlays.HideNotif | script.js:244-247 | `hide()` always clears visibility and the scroll lock |
| Overlays.DismissNotif | script.js:225-228 | dismissing records the dismissal, hides the notification and unlocks scrolling |
| Overlays.ResetNotif | script.js:269-271 | `reset()` clears the dismissal and nothing else |
| Overlays.ModalEscape | script.js:183-188 | the modal's Escape listener hides the modal and unlocks scrolling only if the modal is visible, and otherwise changes nothing |
| Overlays.NotifEscape | script.js:231-235 | the notification's Escape listener hides it and unlocks scrolling only if it is visible, and otherwise changes nothing |
| Overlays.Escape | script.js:183-235 | one Escape press runs both listeners (lines 183-188, then 231-235): both overlays end hidden, scrolling is unlocked if one was visible, and nothing changes if neither was |
| Overlays.Step | script.js:171-271 | routes each listener to its transition: the connect button (171-175) opens the modal, Escape (183-188, 231-235) runs both Escape listeners, `show()` (238-242) and `reset()` (269-271) apply their methods, backdrop (178-181) and wallet option (193-201) close the modal, close, backdrop and dismiss (219-228) close the notification; only the connect button opens the modal, only `show()` without a dismissal opens the notification, and the dismissal is set only by the dismiss button and cleared only by `reset()` |
| Overlays.StepKeepsLockedOnlyWhenOpen | script.js:171-247 | no single overlay event locks scrolling with both overlays closed |
| Overlays.RunKeepsLockedOnlyWhenOpen | script.js:171-247 | no sequence of overlay events locks scrolling with both overlays closed |
| Overlays.SharedLockReleasedUnderOpenNotification | script.js:174-181 | the lock is one shared flag: open the notification, open and close the modal, and the notification shows while scrolling is free |
| Overlays.DismissedStaysHidden | script.js:225-242 | once dismissed, no event sequence without `reset()` makes the notification visible or undoes the dismissal |
| Overlays.ResetThenShow | script.js:238-242 | after `reset()`, `show()` makes the notification visible and locks scrolling |
| Overlays.ModalThenEscape | script.js:183-188 | opening the modal and pressing Escape hides it and restores scrolling |
| Page.Requests | script.js:48-56 | one URL is requested per frame, frame i under `currentFrame(i)` |
| Page.RequestsDistinctFourDigit | script.js:31-33 | the 207 requested URLs are pairwise distinct and all carry a four-digit field |
| Page.Load | script.js:35-37 | at start-up the cursor is at frame 0, all 207 images are outstanding, no scroll trigger exists, the overlays are in their loaded state, and the viewport and element styles are the ones the page was given |
| Page.Step | script.js:39-164 | only a resize changes the viewport, and it leaves the scene alone; a scroll tick after the trigger exists writes the `onUpdate` tick of its progress over 207 frames, and before that, like every other event, leaves the scene alone; an overlay event applies the overlay transition and no other event touches the overlays; the trigger, once created, stays |
| Page.RunLatch | script.js:39-56 | only image settlements move the latch, exactly as the latch alone would move |
| Page.TriggerCreatedAfterAllSettled | script.js:37-56 | the scroll trigger exists exactly when all 207 images have settled, in any order and interleaving |
| Page.RunKeepsTrigger | script.js:87-94 | once created, the scroll trigger is never removed |
| Page.SceneFrozenBeforeTrigger | script.js:95-100 | until the scroll trigger exists no event moves the cursor or any style |
| Page.RunKeepsFrameInRange | script.js:98-100 | the cursor always selects one of the 207 frames |
| Page.Drawn | script.js:58-85 | the current state draws exactly when the selected frame is decodable, and then the cover fit of that frame: covering the viewport, matching it in one dimension, keeping the aspect, centred |
| Page.ResizeRedrawsSameFrame | script.js:160-164 | a resize keeps the current frame and redraws it with the new canvas size |

## Left out

- The GSAP, ScrollTrigger and Lenis wiring is not modelled. This covers the ticker, lag smoothing, the pin, scrub and end distance, and `ScrollTrigger.refresh`. These are third-party libraries. Progress reaches the model as a scroll event carrying a value in [0, 1].
- Canvas backing-store sizing is not modelled: `setCanvasSize`, `devicePixelRatio` and `context.scale`. This is host I/O. The viewport is two natural numbers.
- `clearRect` and `drawImage` are side effects. `Canvas.Render` returns the rectangle that would be drawn, or `None`. The clear always happens.
- Image fetching and decoding are asynchronous host work. Only the settlement events fed to the latch are modelled. The images' `complete` and natural sizes are a parameter of `Render`.
- `Canvas.Render`: it assumes that an image with a positive natural width also has a positive natural height. Browsers report decoded images that way. The code's infinite aspect for a zero height is not modelled.
- The overlays' `classList` "active" class is modelled as the booleans `modalVisible` and `notifVisible`, and `isVisible()` as a read of `notifVisible`. DOM querying and `setNotification` are not modelled: the first is host lookup, the second only changes text.
- The wallet-option `console.log` is not modelled. A wallet-option click is modelled as closing the modal.
- `connectWalletBtn` is an undeclared global that the browser resolves by element id. Its click is the `ShowModal` event.
- The constant `translate(-50%, -50%)` part of the header transform is not modelled. Only the depth that varies is.
- FrameNames.Decimal: models `toString` only as plain decimal digits. JavaScript writes numbers from 10^21 on in exponent notation, which is not modelled; frame numbers here stay below 208.
- IEEE-754 doubles are not modelled. All constants, such as 0.1 and 0.25, are exact reals.
- GSAP calls `onUpdate` at most once per animation frame. The model accepts any sequence of scroll events.

=== FILE: canvas.dfy ===
/** The canvas renderer (script.js, `render`): clear the canvas, then draw the
    current frame scaled to cover the whole canvas with its aspect ratio kept
    and centred, cropping the overflow. Arithmetic is over exact reals. */
module Canvas {
  import opened Wrappers

  /** What the renderer reads from an `Image` element. */
  datatype Image = Image(complete: bool, naturalWidth: nat, naturalHeight: nat) {
    /** A decoded image never reports a positive width with a zero height. */
    predicate WellFormed() {
      naturalWidth > 0 ==> naturalHeight > 0
    }
  }

  /** The destination rectangle of `drawImage`. */
  datatype Rect = Rect(x: real, y: real, width: real, height: real)

  function Max(a: real, b: real): real {
    if a >= b then a else b
  }

  /** Cover fit of an image of size `imageWidth` x `imageHeight` on a canvas of
      size `canvasWidth` x `canvasHeight`. An image wider than the canvas is
      scaled to the canvas height and cropped left and right; otherwise it is
      scaled to the canvas width and cropped top and bottom. On a canvas of
      height zero the aspect comparison is false, as it is for the infinite
      or undefined canvas aspect there. */
  function CoverFit(imageWidth: real, imageHeight: real, canvasWidth: real, canvasHeight: real): (r: Rect)
    requires imageWidth > 0.0 && imageHeight > 0.0
    requires canvasWidth >= 0.0 && canvasHeight >= 0.0
    ensures r.width * imageHeight == imageWidth * r.height
    ensures r.width >= canvasWidth && r.height >= canvasHeight
    ensures r.width == canvasWidth || r.height == canvasHeight
    ensures r.x == (canvasWidth - r.width) / 2.0
    ensures r.y == (canvasHeight - r.height) / 2.0
  {
    var imageAspect := imageWidth / imageHeight;
    if canvasHeight > 0.0 && imageAspect > canvasWidth / canvasHeight then
      var drawHeight := canvasHeight;
      var drawWidth := drawHeight * imageAspect;
      WiderImageFit(imageWidth, imageHeight, canvasWidth, canvasHeight);
      Rect((canvasWidth - drawWidth) / 2.0, 0.0, drawWidth, drawHeight)
    else
      var drawWidth := canvasWidth;
      var drawHeight := drawWidth / imageAspect;
      NarrowerImageFit(imageWidth, imageHeight, canvasWidth, canvasHeight);
      Rect(0.0, (canvasHeight - drawHeight) / 2.0, drawWidth, drawHeight)
  }

  /** Scaling a wider image to the canvas height keeps its aspect and spans
      the canvas width. */
  lemma WiderImageFit(imageWidth: real, imageHeight: real, canvasWidth: real, canvasHeight: real)
    requires imageWidth > 0.0 && imageHeight > 0.0
    requires canvasWidth >= 0.0 && canvasHeight > 0.0
    requires imageWidth / imageHeight > canvasWidth / canvasHeight
    ensures canvasHeight * (imageWidth / imageHeight) * imageHeight == imageWidth * canvasHeight
    ensures canvasHeight * (imageWidth / imageHeight) > canvasWidth
  {
    var a, c := imageWidth / imageHeight, canvasWidth / canvasHeight;
    assert a * imageHeight == imageWidth;
    assert c * canvasHeight == canvasWidth;
    assert canvasHeight * a - canvasHeight * c == canvasHeight * (a - c);
  }

  /** Scaling any other image to the canvas width keeps its aspect and spans
      the canvas height. */
  lemma NarrowerImageFit(imageWidth: real, imageHeight: real, canvasWidth: real, canvasHeight: real)
    requires imageWidth > 0.0 && imageHeight > 0.0
    requires canvasWidth >= 0.0 && canvasHeight >= 0.0
    requires !(canvasHeight > 0.0 && imageWidth / imageHeight > canvasWidth / canvasHeight)
    ensures canvasWidth * imageHeight == imageWidth * (canvasWidth / (imageWidth / imageHeight))
    ensures canvasWidth / (imageWidth / imageHeight) >= canvasHeight
  {
    var a := imageWidth / imageHeight;
    var d := canvasWidth / a;
    assert a * imageHeight == imageWidth;
    assert d * a == canvasWidth;
    assert imageWidth * d == imageHeight * (a * d);
    if canvasHeight > 0.0 {
      var c := canvasWidth / canvasHeight;
      assert c * canvasHeight == canvasWidth;
      assert a * canvasHeight <= c * canvasHeight by {
        assert c * canvasHeight - a * canvasHeight == (c - a) * canvasHeight;
      }
      assert a * d >= a * canvasHeight;
      assert a * (d - canvasHeight) >= 0.0;
    }
  }

  /** The cover fit is the image scaled uniformly by the larger of the two
      axis ratios, which is the smallest uniform scale that covers the canvas. */
  lemma CoverFitIsUniformScale(imageWidth: real, imageHeight: real, canvasWidth: real, canvasHeight: real)
    requires imageWidth > 0.0 && imageHeight > 0.0
    requires canvasWidth >= 0.0 && canvasHeight >= 0.0
    ensures var scale := Max(canvasWidth / imageWidth, canvasHeight / imageHeight);
      var r := CoverFit(imageWidth, imageHeight, canvasWidth, canvasHeight);
      r.width == imageWidth * scale && r.height == imageHeight * scale
  {
    var r := CoverFit(imageWidth, imageHeight, canvasWidth, canvasHeight);
    var sw, sh := canvasWidth / imageWidth, canvasHeight / imageHeight;
    if r.height == canvasHeight && canvasHeight > 0.0 && imageWidth / imageHeight > canvasWidth / canvasHeight {
      assert r.width == canvasHeight * (imageWidth / imageHeight);
      assert sh >= sw by {
        assert canvasWidth * imageHeight < imageWidth * canvasHeight;
      }
    } else {
      assert r.width == canvasWidth;
      assert r.height == canvasWidth / (imageWidth / imageHeight);
      assert sw >= sh by {
        assert r.height >= canvasHeight;
        assert r.height == imageHeight * sw;
      }
    }
  }

  /** No smaller rectangle of the image's aspect covers the canvas. */
  lemma CoverFitIsSmallest(imageWidth: real, imageHeight: real, canvasWidth: real, canvasHeight: real,
                           width: real, height: real)
    requires imageWidth > 0.0 && imageHeight > 0.0
    requires canvasWidth >= 0.0 && canvasHeight >= 0.0
    requires width * imageHeight == imageWidth * height
    requires width >= canvasWidth && height >= canvasHeight
    ensures var r := CoverFit(imageWidth, imageHeight, canvasWidth, canvasHeight);
      r.width <= width && r.height <= height
  {
    var r := CoverFit(imageWidth, imageHeight, canvasWidth, canvasHeight);
    if r.height == canvasHeight {
      assert r.width * imageHeight <= width * imageHeight by {
        assert r.width * imageHeight == imageWidth * r.height;
        assert imageWidth * r.height <= imageWidth * height;
      }
    } else {
      assert r.width == canvasWidth;
      assert imageWidth * r.height <= imageWidth * height by {
        assert imageWidth * r.height == r.width * imageHeight;
        assert r.width * imageHeight <= width * imageHeight;
      }
    }
  }

  /** One `render` call: the canvas is always cleared; the frame at `frame`
      is drawn, with the returned rectangle, only when it exists, has finished
      loading and has a positive natural width. */
  function Render(images: seq<Image>, frame: int, canvasWidth: nat, canvasHeight: nat): (r: Option<Rect>)
    requires forall i :: 0 <= i < |images| ==> images[i].WellFormed()
    ensures r.Some? <==> 0 <= frame < |images| && images[frame].complete && images[frame].naturalWidth > 0
    ensures r.Some? ==> r.value.width >= canvasWidth as real && r.value.height >= canvasHeight as real
    ensures r.Some? ==> r.value.width == canvasWidth as real || r.value.height == canvasHeight as real
    ensures r.Some? ==>
      r.value.width * images[frame].naturalHeight as real == images[frame].naturalWidth as real * r.value.height
    ensures r.Some? ==> r.value.x == (canvasWidth as real - r.value.width) / 2.0
    ensures r.Some? ==> r.value.y == (canvasHeight as real - r.value.height) / 2.0
  {
    if 0 <= frame < |images| && images[frame].complete && images[frame].naturalWidth > 0 then
      var img := images[frame];
      assert img.WellFormed();
      Some(CoverFit(img.naturalWidth as real, img.naturalHeight as real, canvasWidth as real, canvasHeight as real))
    else None
  }
}

=== FILE: frame_names.dfy ===
/** Frame asset naming (script.js, `currentFrame`): the 0-based loop index `i`
    names the file `/frames/frame_NNNN.webp`, where NNNN is `i + 1` written in
    decimal and left-padded with '0' to at least four characters. The parser
    is the partner of the naming function: it accepts exactly the names the
    page requests and recovers the index. */
module FrameNames {
  import opened Wrappers

  const Prefix: string := "/frames/frame_"
  const Suffix: string := ".webp"
  /** The minimum width of the numeric field. */
  const Width: nat := 4

  predicate IsDigit(c: char) {
    '0' <= c <= '9'
  }

  predicate AllDigits(s: string) {
    forall i :: 0 <= i < |s| ==> IsDigit(s[i])
  }

  function DigitChar(d: nat): (c: char)
    requires d < 10
    ensures IsDigit(c)
  {
    (d + '0' as int) as char
  }

  function DigitValue(c: char): (d: nat)
    requires IsDigit(c)
    ensures d < 10 && DigitChar(d) == c
  {
    c as int - '0' as int
  }

  function Pow10(k: nat): (r: nat)
    ensures r >= 1
  {
    if k == 0 then 1 else 10 * Pow10(k - 1)
  }

  /** `Number.prototype.toString()` on a non-negative integer below 10^21
      (from 10^21 on JavaScript switches to exponent notation, which this
      function does not produce): the shortest decimal numeral, which has a
      leading '0' only for zero itself. */
  function Decimal(n: nat): (s: string)
    ensures |s| >= 1 && AllDigits(s)
    ensures s[0] == '0' <==> n == 0
    decreases n
  {
    if n < 10 then [DigitChar(n)] else Decimal(n / 10) + [DigitChar(n % 10)]
  }

  /** The value of a decimal numeral; leading zeros are allowed. */
  function ParseDecimal(s: string): (n: nat)
    requires AllDigits(s)
  {
    if s == [] then 0 else 10 * ParseDecimal(s[..|s| - 1]) + DigitValue(s[|s| - 1])
  }

  function Zeros(k: nat): (s: string)
    ensures |s| == k && forall i :: 0 <= i < k ==> s[i] == '0'
  {
    if k == 0 then [] else Zeros(k - 1) + ['0']
  }

  /** `String.prototype.padStart(width, "0")`. */
  function PadStart(s: string, width: nat): (r: string)
    ensures |r| == if |s| >= width then |s| else width
    ensures r[|r| - |s|..] == s
    ensures forall i :: 0 <= i < |r| - |s| ==> r[i] == '0'
  {
    if |s| >= width then s else Zeros(width - |s|) + s
  }

  /** The numeric field of the name of frame `index`. */
  function Field(index: nat): string {
    PadStart(Decimal(index + 1), Width)
  }

  /** `currentFrame(index)`: the URL requested for the 0-based frame `index`.
      Parsing it gives the index back. */
  function FrameName(index: nat): (s: string)
    ensures ParseFrameName(s) == Some(index)
  {
    var s := Prefix + Field(index) + Suffix;
    FieldIsCanonical(index);
    SplitConcat(Prefix, Field(index), Suffix);
    s
  }

  /** A concatenation `a + f + b` splits back into its three parts. */
  lemma SplitConcat(a: string, f: string, b: string)
    ensures var s := a + f + b;
      && |s| == |a| + |f| + |b|
      && s[..|a|] == a
      && s[|s| - |b|..] == b
      && s[|a|..|s| - |b|] == f
  {
    var s := a + f + b;
    assert s == a + (f + b);
    assert s[..|a|] == a;
    assert s[|s| - |b|..] == b;
    assert s[|a|..|s| - |b|] == f;
  }

  /** A field the page can produce: only digits, at least `Width` of them, and
      a leading zero only where padding put it. */
  predicate CanonicalField(f: string) {
    && AllDigits(f)
    && |f| >= Width
    && (|f| > Width ==> f[0] != '0')
    && ParseDecimal(f) >= 1
  }

  /** Recovers the 0-based frame index from a frame URL, or `None` when the
      string is not a name the page requests. */
  function ParseFrameName(s: string): Option<nat> {
    if |s| >= |Prefix| + |Suffix| && s[..|Prefix|] == Prefix && s[|s| - |Suffix|..] == Suffix then
      var f := s[|Prefix|..|s| - |Suffix|];
      if CanonicalField(f) then Some(ParseDecimal(f) - 1) else None
    else None
  }

  // ---------------------------------------------------------------------------
  // Decimal numerals

  lemma {:induction false} ParseDecimal_Decimal(n: nat)
    ensures ParseDecimal(Decimal(n)) == n
    decreases n
  {
    var s := Decimal(n);
    if n >= 10 {
      assert s[..|s| - 1] == Decimal(n / 10);
      ParseDecimal_Decimal(n / 10);
    }
  }

  /** A numeral with at most `k` digits denotes a number below 10^k, and only those. */
  lemma {:induction false} DecimalLength(n: nat, k: nat)
    requires k >= 1
    ensures |Decimal(n)| <= k <==> n < Pow10(k)
    decreases n
  {
    if n >= 10 {
      if k == 1 {
        assert |Decimal(n)| >= 2;
      } else {
        DecimalLength(n / 10, k - 1);
      }
    }
  }

  lemma {:induction false} ParseDecimal_Zeros(k: nat, s: string)
    requires AllDigits(s)
    ensures AllDigits(Zeros(k) + s)
    ensures ParseDecimal(Zeros(k) + s) == ParseDecimal(s)
    decreases |s|, k
  {
    var t := Zeros(k) + s;
    if s == [] {
      assert t == Zeros(k);
      if k > 0 {
        assert t[..|t| - 1] == Zeros(k - 1) + [];
        ParseDecimal_Zeros(k - 1, []);
      }
    } else {
      assert t[..|t| - 1] == Zeros(k) + s[..|s| - 1];
      ParseDecimal_Zeros(k, s[..|s| - 1]);
    }
  }

  lemma {:induction false} ParseDecimal_Positive(s: string)
    requires AllDigits(s) && |s| >= 1 && s[0] != '0'
    ensures ParseDecimal(s) >= 1
    decreases |s|
  {
    if |s| > 1 {
      ParseDecimal_Positive(s[..|s| - 1]);
    }
  }

  /** A numeral without a leading zero is the numeral of its own value. */
  lemma {:induction false} Decimal_ParseDecimal(s: string)
    requires AllDigits(s) && |s| >= 1 && s[0] != '0'
    ensures Decimal(ParseDecimal(s)) == s
    decreases |s|
  {
    if |s| > 1 {
      var init := s[..|s| - 1];
      ParseDecimal_Positive(init);
      Decimal_ParseDecimal(init);
      var n := ParseDecimal(s);
      assert n / 10 == ParseDecimal(init);
      assert s == init + [s[|s| - 1]];
    }
  }

  /** Strips the leading zeros of a numeral. */
  function LeadingZeros(s: string): (k: nat)
    ensures k <= |s|
    ensures forall i :: 0 <= i < k ==> s[i] == '0'
    ensures k < |s| ==> s[k] != '0'
    decreases |s|
  {
    if s == [] || s[0] != '0' then 0 else 1 + LeadingZeros(s[1..])
  }

  // ---------------------------------------------------------------------------
  // Frame names

  lemma FieldIsCanonical(index: nat)
    ensures CanonicalField(Field(index))
    ensures ParseDecimal(Field(index)) == index + 1
  {
    var d := Decimal(index + 1);
    ParseDecimal_Decimal(index + 1);
    if |d| < Width {
      ParseDecimal_Zeros(Width - |d|, d);
    }
  }

  /** The numeric field has exactly four digits precisely for the first 9999
      frames; from frame index 9999 on it grows beyond four. */
  lemma FieldWidth(index: nat)
    ensures |Field(index)| == Width <==> index < 9999
  {
    DecimalLength(index + 1, Width);
    assert Pow10(Width) == 10000;
  }

  /** A canonical field is the field of the frame it denotes. */
  lemma Field_CanonicalField(f: string)
    requires CanonicalField(f)
    ensures Field(ParseDecimal(f) - 1) == f
  {
    var k := LeadingZeros(f);
    var t := f[k..];
    SplitLeadingZeros(f);
    assert t != [];
    Decimal_ParseDecimal(t);
    var n := ParseDecimal(f);
    assert Field(n - 1) == PadStart(t, Width);
    if |f| > Width {
      assert k == 0;
    } else {
      assert PadStart(t, Width) == Zeros(Width - |t|) + t;
    }
  }

  lemma SplitLeadingZeros(f: string)
    requires AllDigits(f)
    ensures var k := LeadingZeros(f);
      && AllDigits(f[k..])
      && f == Zeros(k) + f[k..]
      && ParseDecimal(f) == ParseDecimal(f[k..])
  {
    var k := LeadingZeros(f);
    assert f == Zeros(k) + f[k..];
    ParseDecimal_Zeros(k, f[k..]);
  }

  /** Every string the parser accepts is the URL of the frame it reports. */
  lemma FrameName_ParseFrameName(s: string)
    requires ParseFrameName(s).Some?
    ensures FrameName(ParseFrameName(s).value) == s
  {
    var f := s[|Prefix|..|s| - |Suffix|];
    Field_CanonicalField(f);
    assert s == s[..|Prefix|] + f + s[|s| - |Suffix|..];
  }

  /** Distinct frames are requested under distinct URLs. */
  lemma FrameNameInjective(i: nat, j: nat)
    requires FrameName(i) == FrameName(j)
    ensures i == j
  {
    assert ParseFrameName(FrameName(i)) == Some(i);
  }
}

=== FILE: overlays.dfy ===
/** The wallet modal and the floating notification (script.js, the wallet
    modal handlers and `FloatingNotification`). Each overlay is a
    hidden/visible toggle; the notification also carries a sticky dismissed
    flag that suppresses `show()` until `reset()`. Both write the same single
    body scroll-lock flag (`document.body.style.overflow`): showing either
    sets it, hiding either clears it, with no count of how many overlays are
    open. */
module Overlays {

  datatype State = State(modalVisible: bool, notifVisible: bool, dismissed: bool, scrollLocked: bool)

  /** The page as loaded: both overlays hidden, nothing dismissed, scrolling free. */
  function Initial(): (s: State)
    ensures !s.modalVisible && !s.notifVisible && !s.dismissed && !s.scrollLocked
    ensures LockedOnlyWhenOpen(s)
  {
    State(false, false, false, false)
  }

  /** Connect-wallet click: open the modal and lock scrolling. */
  function ShowModal(s: State): (r: State)
    ensures r.modalVisible && r.scrollLocked
    ensures r.notifVisible == s.notifVisible && r.dismissed == s.dismissed
  {
    s.(modalVisible := true, scrollLocked := true)
  }

  /** Backdrop click or wallet-option click: close the modal and release
      scrolling, whether or not the notification is still open. */
  function HideModal(s: State): (r: State)
    ensures !r.modalVisible && !r.scrollLocked
    ensures r.notifVisible == s.notifVisible && r.dismissed == s.dismissed
  {
    s.(modalVisible := false, scrollLocked := false)
  }

  /** `show()`: does nothing at all once dismissed; otherwise opens the
      notification and locks scrolling. */
  function ShowNotif(s: State): (r: State)
    ensures s.dismissed ==> r == s
    ensures !s.dismissed ==> r.notifVisible && r.scrollLocked
    ensures r.modalVisible == s.modalVisible && r.dismissed == s.dismissed
  {
    if s.dismissed then s else s.(notifVisible := true, scrollLocked := true)
  }

  /** `hide()` (close button, backdrop): always closes the notification and
      releases scrolling. */
  function HideNotif(s: State): (r: State)
    ensures !r.notifVisible && !r.scrollLocked
    ensures r.modalVisible == s.modalVisible && r.dismissed == s.dismissed
  {
    s.(notifVisible := false, scrollLocked := false)
  }

  /** Dismiss button: remember the dismissal, then `hide()`. */
  function DismissNotif(s: State): (r: State)
    ensures r.dismissed && !r.notifVisible && !r.scrollLocked
    ensures r.modalVisible == s.modalVisible
  {
    HideNotif(s.(dismissed := true))
  }

  /** `reset()`: forget the dismissal; visibility and scrolling are untouched. */
  function ResetNotif(s: State): (r: State)
    ensures !r.dismissed
    ensures r.modalVisible == s.modalVisible && r.notifVisible == s.notifVisible
    ensures r.scrollLocked == s.scrollLocked
  {
    s.(dismissed := false)
  }

  /** The modal's Escape listener: closes the modal, and releases scrolling,
      only if the modal is visible. */
  function ModalEscape(s: State): (r: State)
    ensures !r.modalVisible
    ensures s.modalVisible ==> !r.scrollLocked
    ensures !s.modalVisible ==> r == s
    ensures r.notifVisible == s.notifVisible && r.dismissed == s.dismissed
  {
    if s.modalVisible then HideModal(s) else s
  }

  /** The notification's Escape listener: `hide()` only if `isVisible()`. */
  function NotifEscape(s: State): (r: State)
    ensures !r.notifVisible
    ensures s.notifVisible ==> !r.scrollLocked
    ensures !s.notifVisible ==> r == s
    ensures r.modalVisible == s.modalVisible && r.dismissed == s.dismissed
  {
    if s.notifVisible then HideNotif(s) else s
  }

  /** Escape key. Both keydown listeners see the key press, the modal's first
      (it is registered earlier): each closes its own overlay, and releases
      scrolling, only if that overlay is visible. */
  function Escape(s: State): (r: State)
    ensures !r.modalVisible && !r.notifVisible && r.dismissed == s.dismissed
    ensures s.modalVisible || s.notifVisible ==> !r.scrollLocked
    ensures !s.modalVisible && !s.notifVisible ==> r == s
  {
    NotifEscape(ModalEscape(s))
  }

  /** The user interface events the two overlays respond to. */
  datatype Event =
    | ConnectClick
    | ModalBackdropClick
    | WalletOptionClick
    | EscapeKey
    | NotifShow
    | NotifCloseClick
    | NotifBackdropClick
    | NotifDismissClick
    | NotifReset

  /** Which listener an event reaches. Only the connect button opens the
      modal; only `show()` on an undismissed notification opens the
      notification; the dismissal is set only by the dismiss button and
      cleared only by `reset()`. */
  function Step(s: State, e: Event): (r: State)
    ensures r.modalVisible ==> s.modalVisible || e.ConnectClick?
    ensures r.notifVisible ==> s.notifVisible || (e.NotifShow? && !s.dismissed)
    ensures r.dismissed <==> e.NotifDismissClick? || (s.dismissed && !e.NotifReset?)
    ensures e.ModalBackdropClick? || e.WalletOptionClick? ==>
      !r.modalVisible && !r.scrollLocked && r.notifVisible == s.notifVisible
    ensures e.NotifCloseClick? || e.NotifBackdropClick? || e.NotifDismissClick? ==>
      !r.notifVisible && !r.scrollLocked && r.modalVisible == s.modalVisible
    ensures e.ConnectClick? ==> r == ShowModal(s)
    ensures e.EscapeKey? ==> r == Escape(s)
    ensures e.NotifShow? ==> r == ShowNotif(s)
    ensures e.NotifReset? ==> r == ResetNotif(s)
  {
    match e
    case ConnectClick => ShowModal(s)
    case ModalBackdropClick => HideModal(s)
    case WalletOptionClick => HideModal(s)
    case EscapeKey => Escape(s)
    case NotifShow => ShowNotif(s)
    case NotifCloseClick => HideNotif(s)
    case NotifBackdropClick => HideNotif(s)
    case NotifDismissClick => DismissNotif(s)
    case NotifReset => ResetNotif(s)
  }

  function Run(s: State, events: seq<Event>): State
    decreases |events|
  {
    if events == [] then s else Run(Step(s, events[0]), events[1..])
  }

  /** Scrolling is locked only while some overlay is open. */
  predicate LockedOnlyWhenOpen(s: State) {
    s.scrollLocked ==> s.modalVisible || s.notifVisible
  }

  lemma StepKeepsLockedOnlyWhenOpen(s: State, e: Event)
    requires LockedOnlyWhenOpen(s)
    ensures LockedOnlyWhenOpen(Step(s, e))
  {
  }

  /** No sequence of events, starting from the loaded page, locks scrolling
      with both overlays closed. */
  lemma {:induction false} RunKeepsLockedOnlyWhenOpen(s: State, events: seq<Event>)
    requires LockedOnlyWhenOpen(s)
    ensures LockedOnlyWhenOpen(Run(s, events))
    decreases |events|
  {
    if events != [] {
      StepKeepsLockedOnlyWhenOpen(s, events[0]);
      RunKeepsLockedOnlyWhenOpen(Step(s, events[0]), events[1..]);
    }
  }

  /** The converse fails because the flag is shared: open the notification,
      open and close the modal, and the notification is still showing while
      the page scrolls freely. */
  lemma SharedLockReleasedUnderOpenNotification()
    ensures var s := Run(Initial(), [NotifShow, ConnectClick, ModalBackdropClick]);
      s.notifVisible && !s.scrollLocked
  {
    var s1 := Step(Initial(), NotifShow);
    var s2 := Step(s1, ConnectClick);
    var s3 := Step(s2, ModalBackdropClick);
    assert Run(s3, []) == s3;
  }

  /** Once dismissed, no event other than `reset()` makes the notification
      visible again, and the dismissal persists. */
  lemma {:induction false} DismissedStaysHidden(s: State, events: seq<Event>)
    requires s.dismissed && !s.notifVisible
    requires forall i :: 0 <= i < |events| ==> events[i] != NotifReset
    ensures Run(s, events).dismissed && !Run(s, events).notifVisible
    decreases |events|
  {
    if events != [] {
      DismissedStaysHidden(Step(s, events[0]), events[1..]);
    }
  }

  /** After `reset()`, `show()` opens the notification and locks scrolling. */
  lemma ResetThenShow(s: State)
    ensures ShowNotif(ResetNotif(s)).notifVisible && ShowNotif(ResetNotif(s)).scrollLocked
  {
  }

  /** Opening the wallet modal and pressing Escape closes it and restores
      scrolling. */
  lemma ModalThenEscape(s: State)
    ensures !Escape(ShowModal(s)).modalVisible && !Escape(ShowModal(s)).scrollLocked
  {
  }
}

=== FILE: page.dfy ===
/** The landing page as one state machine: the frame cache's latch, the scene
    written by scroll ticks, the overlays, and the viewport size, driven by the
    events the browser delivers (script.js, the `DOMContentLoaded` handler). */
module Page {
  import opened Wrappers
  import FrameNames
  import Preload
  import ScrollProgress
  import Canvas
  import Overlays

  /** The number of frames in the image sequence. */
  const FrameCount: nat := 207

  datatype State = State(
    latch: Preload.Latch,
    scene: ScrollProgress.Scene,
    overlays: Overlays.State,
    width: nat,
    height: nat)

  datatype Event =
    | ImageSettled(settlement: Preload.Settlement)
    | Scrolled(progress: ScrollProgress.Progress)
    | Resized(width: nat, height: nat)
    | Ui(event: Overlays.Event)

  /** The URLs requested at start-up, one per frame, in loop order. */
  function Requests(): (urls: seq<string>)
    ensures |urls| == FrameCount
    ensures forall i :: 0 <= i < FrameCount ==> urls[i] == FrameNames.FrameName(i)
  {
    seq(FrameCount, i requires 0 <= i => FrameNames.FrameName(i))
  }

  /** All requested URLs are distinct and carry a four-digit frame field. */
  lemma RequestsDistinctFourDigit(i: nat, j: nat)
    requires i < FrameCount && j < FrameCount
    ensures |FrameNames.Field(i)| == FrameNames.Width
    ensures Requests()[i] == Requests()[j] ==> i == j
  {
    FrameNames.FieldWidth(i);
    if Requests()[i] == Requests()[j] {
      FrameNames.FrameNameInjective(i, j);
    }
  }

  /** The page right after start-up: all requests outstanding, the cursor at
      frame 0 (`videoFrames.frame`), the overlays closed. `styles` holds the
      stylesheet's initial element styles, which no script line sets. */
  function Load(styles: ScrollProgress.Scene, width: nat, height: nat): (pg: State)
    ensures pg.scene.frame == 0 && !ScrollTriggerCreated(pg)
    ensures pg.latch.remaining == FrameCount
    ensures pg.overlays == Overlays.Initial()
    ensures pg.width == width && pg.height == height && pg.scene == styles.(frame := 0)
  {
    State(Preload.Start(FrameCount), styles.(frame := 0), Overlays.Initial(), width, height)
  }

  /** Whether the start action has created the scroll trigger. */
  predicate ScrollTriggerCreated(pg: State) {
    pg.latch.starts > 0
  }

  /** One browser event. Scroll ticks reach `onUpdate` only once the scroll
      trigger exists; a resize changes the viewport and redraws, but never
      moves the cursor. */
  function Step(pg: State, e: Event): (r: State)
    ensures e.Resized? ==> r.scene == pg.scene && r.width == e.width && r.height == e.height
    ensures ScrollTriggerCreated(pg) ==> ScrollTriggerCreated(r)
    ensures !e.Scrolled? || !ScrollTriggerCreated(pg) ==> r.scene == pg.scene
    ensures e.Scrolled? && ScrollTriggerCreated(pg) ==>
      r.scene == ScrollProgress.Tick(e.progress, FrameCount, pg.scene)
    ensures e.Ui? ==> r.overlays == Overlays.Step(pg.overlays, e.event)
    ensures !e.Ui? ==> r.overlays == pg.overlays
    ensures !e.Resized? ==> r.width == pg.width && r.height == pg.height
  {
    match e
    case ImageSettled(x) => pg.(latch := Preload.Settle(pg.latch, x))
    case Scrolled(p) =>
      if ScrollTriggerCreated(pg) then pg.(scene := ScrollProgress.Tick(p, FrameCount, pg.scene)) else pg
    case Resized(w, h) => pg.(width := w, height := h)
    case Ui(u) => pg.(overlays := Overlays.Step(pg.overlays, u))
  }

  function Run(pg: State, events: seq<Event>): State
    decreases |events|
  {
    if events == [] then pg else Run(Step(pg, events[0]), events[1..])
  }

  /** The image settlements among the events, in order. */
  function Settlements(events: seq<Event>): (xs: seq<Preload.Settlement>)
    ensures |xs| <= |events|
    decreases |events|
  {
    if events == [] then []
    else if events[0].ImageSettled? then [events[0].settlement] + Settlements(events[1..])
    else Settlements(events[1..])
  }

  /** Only image settlements move the latch, and they move it exactly as the
      latch alone would. */
  lemma {:induction false} RunLatch(pg: State, events: seq<Event>)
    ensures Run(pg, events).latch == Preload.Run(pg.latch, Settlements(events))
    decreases |events|
  {
    if events != [] {
      RunLatch(Step(pg, events[0]), events[1..]);
      if events[0].ImageSettled? {
        assert Settlements(events)[1..] == Settlements(events[1..]);
      }
    }
  }

  /** The scroll trigger exists exactly once every frame has settled, by load
      or by error, in whatever order and interleaving. */
  lemma TriggerCreatedAfterAllSettled(styles: ScrollProgress.Scene, width: nat, height: nat, events: seq<Event>)
    ensures ScrollTriggerCreated(Run(Load(styles, width, height), events))
        <==> |Settlements(events)| >= FrameCount
  {
    var pg := Load(styles, width, height);
    RunLatch(pg, events);
    Preload.StartsOnceAtLastSettlement(FrameCount, Settlements(events));
  }

  lemma {:induction false} RunKeepsTrigger(pg: State, events: seq<Event>)
    requires ScrollTriggerCreated(pg)
    ensures ScrollTriggerCreated(Run(pg, events))
    decreases |events|
  {
    if events != [] {
      RunKeepsTrigger(Step(pg, events[0]), events[1..]);
    }
  }

  /** Until the scroll trigger exists, no event changes the scene: the
      cursor stays where start-up put it. */
  lemma {:induction false} SceneFrozenBeforeTrigger(pg: State, events: seq<Event>)
    requires !ScrollTriggerCreated(Run(pg, events))
    ensures Run(pg, events).scene == pg.scene
    decreases |events|
  {
    if events != [] {
      var next := Step(pg, events[0]);
      if ScrollTriggerCreated(next) {
        RunKeepsTrigger(next, events[1..]);
        assert false;
      }
      SceneFrozenBeforeTrigger(next, events[1..]);
    }
  }

  /** The cursor always selects one of the frames. */
  lemma {:induction false} RunKeepsFrameInRange(pg: State, events: seq<Event>)
    requires 0 <= pg.scene.frame < FrameCount
    ensures 0 <= Run(pg, events).scene.frame < FrameCount
    decreases |events|
  {
    if events != [] {
      RunKeepsFrameInRange(Step(pg, events[0]), events[1..]);
    }
  }

  /** What one `render` call draws in the current state. */
  function Drawn(pg: State, images: seq<Canvas.Image>): (r: Option<Canvas.Rect>)
    requires |images| == FrameCount
    requires 0 <= pg.scene.frame < FrameCount
    requires forall i :: 0 <= i < |images| ==> images[i].WellFormed()
    ensures r.Some? <==> images[pg.scene.frame].complete && images[pg.scene.frame].naturalWidth > 0
    ensures r.Some? ==> r.value.width >= pg.width as real && r.value.height >= pg.height as real
    ensures r.Some? ==> r.value.width == pg.width as real || r.value.height == pg.height as real
    ensures r.Some? ==> r.value.width * images[pg.scene.frame].naturalHeight as real
                        == images[pg.scene.frame].naturalWidth as real * r.value.height
    ensures r.Some? ==> r.value.x == (pg.width as real - r.value.width) / 2.0
    ensures r.Some? ==> r.value.y == (pg.height as real - r.value.height) / 2.0
  {
    Canvas.Render(images, pg.scene.frame, pg.width, pg.height)
  }

  /** A resize redraws the same frame, only with the new canvas geometry. */
  lemma ResizeRedrawsSameFrame(pg: State, width: nat, height: nat, images: seq<Canvas.Image>)
    requires |images| == FrameCount
    requires 0 <= pg.scene.frame < FrameCount
    requires forall i :: 0 <= i < |images| ==> images[i].WellFormed()
    ensures Step(pg, Resized(width, height)).scene.frame == pg.scene.frame
    ensures Drawn(Step(pg, Resized(width, height)), images)
         == Canvas.Render(images, pg.scene.frame, width, height)
  {
  }
}

=== FILE: preload.dfy ===
/** The frame cache's countdown latch (script.js, `imagesToLoad` and `onLoad`).
    The counter starts at the frame count; every image settlement, success or
    error alike, decrements it, and the settlement that brings it to exactly
    zero performs the one-shot start: the first render and the creation of the
    scroll trigger. */
module Preload {

  /** How one image request ended. Both endings count as settled. */
  datatype Settlement = Loaded | Failed

  /** `remaining` is `imagesToLoad`; `starts` counts how often the start
      action has run. */
  datatype Latch = Latch(remaining: int, starts: nat)

  function Start(frameCount: nat): (l: Latch)
    ensures l.remaining == frameCount && l.starts == 0
  {
    Latch(frameCount, 0)
  }

  /** `onLoad` (also reached from `onerror`): the latch fires on this
      settlement exactly when it was waiting for one last image. */
  function Settle(l: Latch, e: Settlement): (r: Latch)
    ensures r.remaining == l.remaining - 1
    ensures r.starts == l.starts + 1 <==> l.remaining == 1
    ensures r.starts == l.starts <==> l.remaining != 1
  {
    var remaining := l.remaining - 1;
    if remaining == 0 then Latch(remaining, l.starts + 1) else Latch(remaining, l.starts)
  }

  /** The latch after a sequence of settlements, in arrival order. */
  function Run(l: Latch, events: seq<Settlement>): Latch
    decreases |events|
  {
    if events == [] then l else Run(Settle(l, events[0]), events[1..])
  }

  /** After any sequence of settlements the counter has dropped by their
      number, and the start action has run once if the counter passed from 1
      to 0 along the way and not at all otherwise; which settlements were
      errors does not matter. */
  lemma {:induction false} RunCounts(l: Latch, events: seq<Settlement>)
    ensures Run(l, events).remaining == l.remaining - |events|
    ensures Run(l, events).starts
         == l.starts + (if 1 <= l.remaining <= |events| then 1 else 0)
    decreases |events|
  {
    if events != [] {
      RunCounts(Settle(l, events[0]), events[1..]);
    }
  }

  /** From a fresh latch of `frameCount`, the start action has run exactly
      once after at least `frameCount` settlements, never before, and never
      at all when `frameCount` is zero. */
  lemma StartsOnceAtLastSettlement(frameCount: nat, events: seq<Settlement>)
    ensures Run(Start(frameCount), events).starts
         == (if 1 <= frameCount <= |events| then 1 else 0)
  {
    RunCounts(Start(frameCount), events);
  }

  /** The settlement that fires the latch is precisely the `frameCount`-th. */
  lemma FiresAtSettlement(frameCount: nat, events: seq<Settlement>, k: nat)
    requires k < |events|
    ensures Run(Start(frameCount), events[..k + 1]).starts
          > Run(Start(frameCount), events[..k]).starts
        <==> k + 1 == frameCount
  {
    StartsOnceAtLastSettlement(frameCount, events[..k + 1]);
    StartsOnceAtLastSettlement(frameCount, events[..k]);
  }
}

=== FILE: scroll_progress.dfy ===
/** The scroll-progress driver of the pinned hero section (script.js, the
    `onUpdate` callback). Every update tick delivers one progress value in
    [0, 1]; four independent piecewise-linear curves are recomputed from it:
    the canvas frame index, the nav opacity, the header depth and opacity, and
    the hero-image depth and opacity. Arithmetic is over exact reals. */
module ScrollProgress {

  /** A progress value as the scroll trigger reports it. */
  type Progress = p: real | 0.0 <= p <= 1.0

  function Min(a: real, b: real): real {
    if a <= b then a else b
  }

  function Abs(x: real): real {
    if x < 0.0 then -x else x
  }

  /** `Math.round`: the nearest integer, halves rounded upward. */
  function Round(x: real): (r: int)
    ensures r as real - 0.5 <= x < r as real + 0.5
  {
    (x + 0.5).Floor
  }

  // ---------------------------------------------------------------------------
  // Frame index

  /** The frame shown at progress `p`: the first 90% of the pinned scroll plays
      the whole sequence, the last 10% holds the final frame. */
  function FrameIndex(p: Progress, frameCount: nat): (r: int)
    ensures p == 0.0 ==> r == 0
    ensures frameCount >= 1 ==> 0 <= r < frameCount
    ensures p >= 0.9 ==> r == frameCount - 1
    ensures p <= 0.9 ==> r as real - 0.5 <= p / 0.9 * (frameCount - 1) as real < r as real + 0.5
  {
    var animationProgress := Min(p / 0.9, 1.0);
    var exact := animationProgress * (frameCount - 1) as real;
    assert frameCount >= 1 ==> 0.0 <= exact <= (frameCount - 1) as real by {
      if frameCount >= 1 {
        ScaleWithin(animationProgress, (frameCount - 1) as real);
      }
    }
    Round(exact)
  }

  /** For a factor in [0, 1], scaling a non-negative bound stays within it. */
  lemma ScaleWithin(a: real, m: real)
    requires 0.0 <= a <= 1.0 && m >= 0.0
    ensures 0.0 <= a * m <= m
  {
    assert a * m <= 1.0 * m by {
      ScaleMonotone(a, 1.0, m);
    }
  }

  lemma ScaleMonotone(a: real, b: real, m: real)
    requires a <= b && m >= 0.0
    ensures a * m <= b * m
  {
    assert b * m - a * m == (b - a) * m;
  }

  /** Scrolling forward never moves the canvas to an earlier frame. */
  lemma FrameIndexMonotone(p: Progress, q: Progress, frameCount: nat)
    requires p <= q
    requires frameCount >= 1
    ensures FrameIndex(p, frameCount) <= FrameIndex(q, frameCount)
  {
    var a, b := Min(p / 0.9, 1.0), Min(q / 0.9, 1.0);
    assert a <= b;
    var m := (frameCount - 1) as real;
    ScaleMonotone(a, b, m);
    RoundMonotone(a * m, b * m);
  }

  lemma RoundMonotone(x: real, y: real)
    requires x <= y
    ensures Round(x) <= Round(y)
  {
  }

  /** The progress at which frame `k` is shown exactly, with no rounding. */
  function FrameProgress(k: nat, frameCount: nat): (p: Progress)
    requires k < frameCount
    ensures p <= 0.9
  {
    if frameCount == 1 then 0.0
    else
      var ratio := k as real / (frameCount - 1) as real;
      assert ratio <= 1.0;
      0.9 * ratio
  }

  /** Every frame of the sequence is reachable: at `FrameProgress(k)` the
      driver selects exactly frame `k`. */
  lemma FrameIndexReachesEveryFrame(k: nat, frameCount: nat)
    requires k < frameCount
    ensures FrameIndex(FrameProgress(k, frameCount), frameCount) == k
  {
    var p := FrameProgress(k, frameCount);
    if frameCount > 1 {
      var m := (frameCount - 1) as real;
      assert p / 0.9 == k as real / m;
      assert k as real / m * m == k as real;
    }
  }

  // ---------------------------------------------------------------------------
  // Nav opacity

  /** The navigation bar fades out linearly over the first 10% of the scroll. */
  function NavOpacity(p: Progress): (r: real)
    ensures 0.0 <= r <= 1.0
    ensures p == 0.0 ==> r == 1.0
    ensures p >= 0.1 ==> r == 0.0
  {
    if p <= 0.1 then
      var navProgress := p / 0.1;
      1.0 - navProgress
    else 0.0
  }

  lemma NavOpacityNonIncreasing(p: Progress, q: Progress)
    requires p <= q
    ensures NavOpacity(q) <= NavOpacity(p)
  {
  }

  /** The nav opacity never changes faster than the fade slope 1/0.1; in
      particular the curve is continuous at the 0.1 breakpoint. */
  lemma NavOpacityLipschitz(p: Progress, q: Progress)
    ensures Abs(NavOpacity(p) - NavOpacity(q)) <= 10.0 * Abs(p - q)
  {
  }

  // ---------------------------------------------------------------------------
  // Header

  /** Depth and opacity written to a page element (depth is `translateZ` in px). */
  datatype Style = Style(depth: real, opacity: real)

  /** Header opacity: held at 1 until 0.2, linear fade to 0 at 0.25, then 0. */
  function HeaderOpacity(p: Progress): (r: real)
    ensures 0.0 <= r <= 1.0
    ensures p < 0.2 ==> r == 1.0
    ensures p >= 0.25 ==> r == 0.0
  {
    if p <= 0.25 then
      if p >= 0.2 then
        var fadeProgress := Min((p - 0.2) / (0.25 - 0.2), 1.0);
        1.0 - fadeProgress
      else 1.0
    else 0.0
  }

  /** Header depth while the header is still animated (up to 0.25). */
  function HeaderDepth(p: Progress): (r: real)
    requires p <= 0.25
    ensures -500.0 <= r <= 0.0
    ensures p == 0.0 ==> r == 0.0
    ensures p == 0.25 ==> r == -500.0
  {
    var zProgress := p / 0.25;
    zProgress * -500.0
  }

  /** The header's style after a tick. Beyond 0.25 only the opacity is written
      and the transform keeps whatever value the previous tick left. */
  function HeaderStyle(p: Progress, previous: Style): (r: Style)
    ensures r.opacity == HeaderOpacity(p)
    ensures p <= 0.25 ==> r.depth == HeaderDepth(p) && -500.0 <= r.depth <= 0.0
    ensures p > 0.25 ==> r.depth == previous.depth
  {
    if p <= 0.25 then Style(HeaderDepth(p), HeaderOpacity(p))
    else previous.(opacity := HeaderOpacity(p))
  }

  lemma HeaderOpacityNonIncreasing(p: Progress, q: Progress)
    requires p <= q
    ensures HeaderOpacity(q) <= HeaderOpacity(p)
  {
  }

  /** The header fade never changes faster than its slope 1/0.05: continuous
      at 0.2 and at 0.25. */
  lemma HeaderOpacityLipschitz(p: Progress, q: Progress)
    ensures Abs(HeaderOpacity(p) - HeaderOpacity(q)) <= 20.0 * Abs(p - q)
  {
  }

  /** The header recedes steadily: depth falls by 2000 px per unit of progress. */
  lemma HeaderDepthLinear(p: Progress, q: Progress)
    requires p <= q <= 0.25
    ensures HeaderDepth(q) <= HeaderDepth(p)
    ensures HeaderDepth(p) - HeaderDepth(q) == 2000.0 * (q - p)
  {
  }

  // ---------------------------------------------------------------------------
  // Hero image

  /** The hero image waits at depth 1000 and invisible until 0.6, then flies
      in to depth 0 by 0.9 while fading in by 0.8; beyond 0.9 it rests. */
  function HeroStyle(p: Progress): (r: Style)
    ensures 0.0 <= r.depth <= 1000.0
    ensures 0.0 <= r.opacity <= 1.0
    ensures p < 0.6 ==> r == Style(1000.0, 0.0)
    ensures p >= 0.8 ==> r.opacity == 1.0
    ensures p >= 0.9 ==> r == Style(0.0, 1.0)
  {
    if p < 0.6 then Style(1000.0, 0.0)
    else if p >= 0.6 && p <= 0.9 then
      var imgProgress := (p - 0.6) / (0.9 - 0.6);
      var translateZ := 1000.0 - imgProgress * 1000.0;
      var opacity := if p <= 0.8 then (p - 0.6) / (0.8 - 0.6) else 1.0;
      Style(translateZ, opacity)
    else Style(0.0, 1.0)
  }

  lemma HeroStyleMonotone(p: Progress, q: Progress)
    requires p <= q
    ensures HeroStyle(q).depth <= HeroStyle(p).depth
    ensures HeroStyle(p).opacity <= HeroStyle(q).opacity
  {
  }

  /** Neither hero curve jumps: depth moves at most 1000/0.3 px and opacity
      at most 1/0.2 per unit of progress, so both are continuous at 0.6, 0.8
      and 0.9. */
  lemma HeroStyleLipschitz(p: Progress, q: Progress)
    ensures 3.0 * Abs(HeroStyle(p).depth - HeroStyle(q).depth) <= 10000.0 * Abs(p - q)
    ensures Abs(HeroStyle(p).opacity - HeroStyle(q).opacity) <= 5.0 * Abs(p - q)
  {
  }

  /** Sample values of the curves at fixed progress points. */
  lemma CurveSamples()
    ensures HeaderOpacity(0.22) == 0.6 && HeaderOpacity(0.3) == 0.0
    ensures HeroStyle(0.7).opacity == 0.5
    ensures HeroStyle(0.85).opacity == 1.0
    ensures HeroStyle(0.5).opacity == 0.0
  {
  }

  // ---------------------------------------------------------------------------
  // One update tick

  /** Everything a tick writes: the playback cursor and three element styles. */
  datatype Scene = Scene(frame: int, navOpacity: real, header: Style, hero: Style)

  /** The bounds every tick establishes, given a header depth already in range. */
  predicate InRange(s: Scene, frameCount: nat) {
    && 0 <= s.frame < frameCount
    && 0.0 <= s.navOpacity <= 1.0
    && -500.0 <= s.header.depth <= 0.0 && 0.0 <= s.header.opacity <= 1.0
    && 0.0 <= s.hero.depth <= 1000.0 && 0.0 <= s.hero.opacity <= 1.0
  }

  /** The `onUpdate` callback: recompute every curve from `p`. The previous
      scene is read only for the header depth, which is left as it was
      beyond 0.25. */
  function Tick(p: Progress, frameCount: nat, previous: Scene): (r: Scene)
    ensures r.frame == FrameIndex(p, frameCount) && r.navOpacity == NavOpacity(p)
    ensures r.header == HeaderStyle(p, previous.header) && r.hero == HeroStyle(p)
    ensures frameCount >= 1 && (p <= 0.25 || -500.0 <= previous.header.depth <= 0.0)
      ==> InRange(r, frameCount)
  {
    Scene(FrameIndex(p, frameCount), NavOpacity(p), HeaderStyle(p, previous.header), HeroStyle(p))
  }

  /** A tick depends on the previous scene only through the header depth, and
      only once the header has stopped animating (beyond 0.25). */
  lemma TickForgetsPrevious(p: Progress, frameCount: nat, s: Scene, t: Scene)
    ensures Tick(p, frameCount, s).(header := Style(0.0, 0.0))
         == Tick(p, frameCount, t).(header := Style(0.0, 0.0))
    ensures Tick(p, frameCount, s).header.opacity == Tick(p, frameCount, t).header.opacity
    ensures p <= 0.25 || s.header.depth == t.header.depth
      ==> Tick(p, frameCount, s) == Tick(p, frameCount, t)
  {
  }

  /** Redelivering the same progress value changes nothing. */
  lemma TickIdempotent(p: Progress, frameCount: nat, s: Scene)
    ensures Tick(p, frameCount, Tick(p, frameCount, s)) == Tick(p, frameCount, s)
  {
  }
}

=== FILE: wrappers.dfy ===
/** The optional value used where the page may or may not produce something
    (a draw rectangle, a parsed frame index). */
module Wrappers {

  datatype Option<+T> = None | Some(value: T)
}
